=== FILE: README.md ===
# Mars rover state machine

A Dafny model of the `marchrover` Go package, a rover on a grid of
64-bit integer coordinates that wrap around. The rover has a cell, a heading and a `stopped` flag, and it
holds a list of obstacle cells. It reads a command string of `F` (forward),
`B` (backward), `R` (turn right) and `L` (turn left). It works on a
*candidate* state and commits each command unless the candidate lands on an
obstacle. At the first collision it stops reading commands.

Modules:

- `Heading` (`heading.dfy`): the `Direction` datatype and the two lookup
  tables of `rover.go`. `movingDelats` gives each heading's unit step and
  `directionDeltas` gives its `{right, left}` turn targets. Go's `Direction`
  is a plain string, and `SetDirection` accepts any string. So the datatype
  has four canonical variants plus `Other(name)` for every other string.
  Neither table has an entry for `Other`.
- `MarchRover` (`rover.dfy`): the errors, `roverCoordination`, `Rover`,
  `toDirection`, `getMovingDelta`, `getDirectionDelta`, `coordinate`,
  `isOnObstacle`, `Execute`, `NewRover`, `SetObstacles`, `SetDirection` and
  `Output`.
- `Ints` (`ints.dfy`): Go's 64-bit `int`. Moves wrap around in two's
  complement. `ParseInt` stands in for `strconv.Atoi` and `FormatInt` for
  `%d`.
- `Text` (`text.dfy`): `strings.Split`, `strings.Join`, and
  `strings.EqualFold` against an upper-case ASCII name.
- `Wrappers` (`wrappers.dfy`): `Option` and `Result`.
- `Scenarios` (`scenarios.dfy`): the scenarios of `rover/rover_test.go`, plus
  a few that exercise the less obvious paths of `Execute`.

The Go `Rover` is a mutable record. Here every operation is a pure function
that returns the new rover. `Execute` and `SetObstacles` also return the
error they produce, as an `Outcome`. `Execute` is defined by recursion over
the command index (`ExecuteFrom`). Its reference definition is `Run`, the
left fold of `Coordinate` over the first `k` commands with obstacles
ignored. `Clear(c, commands, k, obstacles)` says that each of the first `k`
commands applies and lands off every obstacle. Four lemmas cover the four
cases: every command is clear, the first blocked command hits an obstacle,
it fails, or it is an invalid symbol. `ExecuteCases` shows these cases are
exhaustive.

The model follows the code as written, including these less obvious behaviours:

- A call that meets an invalid symbol keeps every command before it
  committed. It is not atomic.
- `stopped` is reassigned after every command. So a later call whose
  commands land clear sets it back to false. It is not a sticky flag.
- The obstacle test also runs after a turn. A turn made while the rover
  already sits on an obstacle therefore sets `stopped` and is not committed.
  This can happen because `SetObstacles` does not re-check the current cell.
- `SetDirection` takes any string and does not fold case. A lower-case name
  becomes `Other`, and every later move or turn then fails with
  `InvalidDirection`.
- The offset in `InvalidCommand` is what Go's `range` over a string reports,
  which is a byte offset. Every valid command is one byte long, so
  `ByteOffsetOfCommands` shows it always equals the character index.
- The Go error message for a bad heading field says "y". The model gives that
  failure its own variant, `InvalidHeading`.

## Model

| member | source | states |
|---|---|---|
| Heading.FromName | rover.go:25 | Converting a Go string to a `Direction` keeps its text, and gives `Other` exactly for non-canonical strings |
| Heading.NameRoundTrip | rover.go:25 | Every validly represented direction is recovered from its string |
| Heading.CanonicalNameShape | rover.go:11-16 | The canonical names are four or five upper-case ASCII letters |
| Heading.TablesCoverCanonical | rover.go:82-94 | Both tables have an entry for exactly the four canonical headings, and none for `Other` |
| Heading.TurnRight | rover.go:159-164 | A right turn looks up the first entry of `directionDeltas`, which is a canonical heading other than the current one |
| Heading.TurnLeft | rover.go:165-170 | A left turn looks up the second entry of `directionDeltas`, which is a canonical heading other than the current one |
| Heading.TurnsFollowCycle | rover.go:89-94 | A right turn moves one place forward round East→South→West→North→East, and a left turn moves one place back |
| Heading.TurnsInverse | rover.go:89-94 | Left undoes right, and right undoes left |
| Heading.FourTurnsIdentity | rover.go:89-94 | Four right turns, or four left turns, give back the original heading |
| Heading.StepIsUnit | rover.go:82-87 | Each heading's step is one cell along exactly one axis |
| Heading.RightRotatesStep | rover.go:82-94 | The two tables agree: the step after a right turn is the old step rotated a quarter turn clockwise |
| Ints.Wrap | rover.go:150-151 | A sum inside the 64-bit range is unchanged by wrapping |
| Ints.WrapCongruent | rover.go:150-151 | The wrapped value differs from the unbounded sum by a multiple of 2^64 |
| Ints.WrapNear | rover.go:150-158 | One step past either end of the 64-bit range lands on the other end |
| Ints.WrapStepBack | rover.go:150-158 | A unit step followed by the opposite step returns to the start value, wrap-around included |
| Ints.FormatInt | rover.go:114 | `%d` renders an integer as decimal digits, with a leading '-' exactly when it is negative and no leading zero except in "0" itself. `FormatParseRoundTrip` shows the rendering loses nothing |
| Ints.ParseInt | rover.go:64-72 | `strconv.Atoi` succeeds exactly on a well-formed literal (optional sign, at least one digit, nothing else) whose value fits in 64 bits, and returns that value |
| Ints.ParseIntErrors | rover.go:64-72 | A well-formed literal out of the 64-bit range fails with `ErrRange`. Any other text fails with `ErrRange` exactly when its leading digits already exceed the unsigned 64-bit range, and with `ErrSyntax` otherwise |
| Ints.DigitsRoundTrip | rover.go:114 | The value of the decimal digits printed for a natural number is that number |
| Ints.FormatParseRoundTrip | rover.go:64-72 | The integer parser reads back every 64-bit value from its `%d` rendering |
| Text.EqualFold | rover.go:34 | `strings.EqualFold` against an upper-case ASCII name: the same number of characters, each equal to the name's letter under simple case folding. `ToDirectionExact` and `ToDirectionAcceptsNames` state what it accepts |
| Text.FindFrom | rover.go:58 | The result is the first occurrence of the separator at or after the start index, or none if there is no such occurrence |
| Text.Split | rover.go:58 | Splitting gives at least one piece, and no piece contains the separator |
| Text.PrefixBeforeFirst | rover.go:58 | The text before the first occurrence of the separator does not contain it |
| Text.JoinSplit | rover.go:58 | Joining the pieces with the separator restores the split string |
| Text.SplitJoin | rover.go:58 | Splitting a join of pieces that lack the separator's first character gives the pieces back |
| Text.FindAfterFree | rover.go:58 | In `a + sep + b`, the first separator is the one right after `a` when `a` lacks its first character, and cutting there gives back `a` and `b` |
| Text.SplitAfterFree | rover.go:58 | Splitting `a + sep + b` gives `a` followed by the pieces of `b`, when `a` lacks the separator's first character |
| Text.JoinCons | rover.go:58 | Joining a leading piece onto a non-empty list puts the separator between it and the join of the rest |
| Text.JoinThree | rover.go:58 | Three pieces join with the separator between each pair |
| Text.CutAt | rover.go:58 | An occurrence cuts a string into the text before it, the separator and the text after it |
| MarchRover.ToDirection | rover.go:27-41 | Success returns a canonical heading whose name case-folds to the input. Failure carries `DirectionNotFound(s)` |
| MarchRover.ToDirectionFails | rover.go:27-41 | The parser fails exactly when no canonical name case-folds to the input |
| MarchRover.ToDirectionExact | rover.go:27-41 | The parser returns heading `d` if and only if the input case-folds to `d`'s name |
| MarchRover.ToDirectionAcceptsNames | rover.go:27-41 | Every canonical name is accepted in upper case and in lower case |
| MarchRover.GetMovingDelta | rover.go:178-185 | Succeeds exactly for canonical headings, with a unit step. Otherwise it fails with `InvalidDirection` carrying the heading |
| MarchRover.GetDirectionDelta | rover.go:187-193 | Succeeds exactly for canonical headings, with two distinct canonical targets that differ from the heading. Otherwise it fails with `InvalidDirection` |
| MarchRover.Coordinate | rover.go:143-176 | A symbol other than F/B/R/L fails with `InvalidCommand(symbol, offset)`. F/B/R/L fail exactly on a non-canonical heading, with `InvalidDirection`. Success always ends on a canonical heading |
| MarchRover.CoordinateMoves | rover.go:145-158 | F and B keep the heading and move to a cell one 64-bit step away along one axis |
| MarchRover.UnitStepAdjacent | rover.go:150-158 | A wrapped unit step along one axis reaches an adjacent cell |
| MarchRover.CoordinateTurns | rover.go:159-170 | R and L keep the cell and change the heading |
| MarchRover.CoordinateOffsetOnlyInError | rover.go:171-172 | The command offset only appears in the error: a successful command gives the same candidate whatever its offset |
| MarchRover.ForwardThenBackward | rover.go:145-158 | F then B returns to the starting cell with the heading unchanged |
| MarchRover.BackwardThenForward | rover.go:145-158 | B then F returns to the starting cell with the heading unchanged |
| MarchRover.TurnThenTurnBack | rover.go:159-170 | R then L, or L then R, restores the heading and the cell |
| MarchRover.CoordinateUsesTables | rover.go:143-170 | F adds the heading's table step and B subtracts it, both wrapped to 64 bits. R and L take the heading's table targets |
| MarchRover.IsOnObstacle | rover.go:134-141 | True exactly when the rover's cell is in the obstacle list |
| MarchRover.ExecuteFromInvariants | rover.go:117-132 | The loop never changes the obstacles. It only commits a cell that is the starting one or off every obstacle. It keeps headings validly represented. Its only errors are `InvalidCommand` and `InvalidDirection`. It changes `stopped` only when a command is left to run |
| MarchRover.ExecuteFrom | rover.go:117-132 | The loop of `Execute` from its i-th iteration: commit a clear candidate and go on, stop at an obstacle, or return the command's error. Its guarantees are stated by `ExecuteFromInvariants` and the four case lemmas below |
| MarchRover.Execute | rover.go:117-132 | A whole call never changes the obstacles, keeps headings validly represented, returns only `InvalidCommand` or `InvalidDirection`, and does nothing for an empty command string |
| MarchRover.ExecuteCommitsOnlyClearCells | rover.go:117-132 | A whole call leaves the rover on its starting cell or on a cell off every obstacle |
| MarchRover.ExecuteClearStep | rover.go:119-128 | A command whose candidate lands clear is committed, `stopped` is cleared, and the loop goes on with the next command |
| MarchRover.ExecuteBlockedStep | rover.go:124-127 | A command whose candidate is an obstacle sets `stopped` and ends the call with no error and nothing further committed |
| MarchRover.ByteOffsetOfCommands | rover.go:119 | Before the first invalid symbol, the byte offset Go reports equals the character index |
| MarchRover.ClearPrefixIsCommands | rover.go:119-122 | Every command in a clear prefix is one of F/B/R/L |
| MarchRover.ExecuteSkipsClearPrefix | rover.go:117-132 | While commands land clear, each loop iteration commits its candidate |
| MarchRover.ExecuteAllClear | rover.go:117-132 | If no command fails or hits an obstacle, the rover ends in the left fold of `coordinate` with no error, and `stopped` is cleared when there was at least one command |
| MarchRover.ExecuteStopsAtObstacle | rover.go:124-127 | At the first command whose candidate is an obstacle, the state committed before it is kept, `stopped` is set, the remaining commands are skipped, and no error is returned |
| MarchRover.ExecuteFailsAt | rover.go:119-122 | At the first failing command, the commands before it stay committed, `stopped` keeps its last value, and that command's error is returned |
| MarchRover.ExecuteInvalidCommand | rover.go:171-172 | An invalid symbol at index k is reported as `InvalidCommand(symbol, k)`, and the first k commands stay committed |
| MarchRover.ExecuteCases | rover.go:117-132 | Either every command lands clear, or there is a first command that fails or hits an obstacle |
| MarchRover.Utf8Len | rover.go:119 | The UTF-8 byte length of a text lies between its length in characters and four times that |
| MarchRover.ByteOffset | rover.go:119 | The index Go reports for the i-th character is the UTF-8 byte length of the characters before it, at least i and at most 4i |
| MarchRover.Utf8LenConcat | rover.go:119 | The UTF-8 byte length of a concatenation is the sum of the lengths |
| MarchRover.ExecuteConcatPrefix | rover.go:117-132 | Inside `a + b`, the commands of `a` run as they do alone while `a` neither fails nor stops |
| MarchRover.ByteOffsetInConcat | rover.go:119 | The byte offset of a command of `b` inside `a + b` is its offset in `b` plus the byte length of `a` |
| MarchRover.CoordinateShift | rover.go:143-176 | Reading a command at a later offset succeeds or fails alike. Only an invalid symbol's reported offset moves |
| MarchRover.ExecuteConcatSuffixStep | rover.go:117-132 | At a command of `b`, the loop over `a + b` and the loop over `b` alone commit the same state or both end, with error offsets moved past `a` |
| MarchRover.ExecuteConcatSuffix | rover.go:117-132 | Inside `a + b`, the commands of `b` run as they do alone, with error offsets moved past `a` |
| MarchRover.ExecuteConcat | rover.go:117-132 | One call with `a + b` equals a call with `a` followed by a call with `b`, with `b`'s error offsets moved past `a`, whenever the call with `a` returns no error and, if `a` is not empty, does not stop the rover |
| MarchRover.TurnOnObstacleStops | rover.go:124-127 | A turn made on an obstacle cell is not committed: `stopped` is set and the call ends without error |
| MarchRover.Inner | rover.go:57-58 | The text between the first and last characters of the input. A single character leaves text that splits into exactly one field, as Go's inner bytes of a lone multi-byte character do |
| MarchRover.NewRover | rover.go:56-99 | Succeeds exactly when the inner text splits on ", " into three fields with integer x and y and a valid heading. The new rover holds the parsed values, is not stopped, and its obstacles are the given list or empty. Any other field count gives `InvalidInitialization`. With three fields, the first that does not parse decides the error: `InvalidX` or `InvalidY` carrying Atoi's error kind, or `InvalidHeading` carrying `DirectionNotFound` |
| MarchRover.LiteralInner | rover.go:57-58 | The text between a literal's brackets is its fields joined with ", " |
| MarchRover.LiteralFieldsCommaFree | rover.go:58 | No field of a literal contains a comma |
| MarchRover.LiteralFields | rover.go:57-62 | The inner text of a literal splits on ", " into exactly its three fields |
| MarchRover.NewRoverFromLiteral | rover.go:56-99 | The literal "(x, y, HEADING)" of any 64-bit cell and canonical heading builds exactly that rover |
| MarchRover.SetObstacles | rover.go:101-103 | A decoded list replaces the obstacles wholesale. The cell, heading and `stopped` are untouched. An undecodable input returns `InvalidObstacles` |
| MarchRover.SetDirection | rover.go:105-107 | The heading becomes the given string, validly represented. The cell, `stopped` and obstacles are unchanged |
| MarchRover.FormatIntHasNoPunctuation | rover.go:114 | A printed integer contains neither ',' nor ')' |
| MarchRover.SplitStoppedRoundTrip | rover.go:110-113 | The " STOPPED" suffix is recognised exactly when it was appended to a short heading name |
| MarchRover.StatusLineCuts | rover.go:114 | In a status line, the first ", " follows x and the first ") " follows y |
| MarchRover.ParseOutputFields | rover.go:114 | The two integers and the tail of a status line are recovered from it |
| MarchRover.Output | rover.go:109-115 | The status line "(x, y) HEADING", with " STOPPED" appended when stopped. What it keeps is stated by `OutputRoundTrip` and `OutputInjective` |
| MarchRover.OutputRoundTrip | rover.go:109-115 | For a canonical heading, the status line determines x, y, the heading name and the stopped flag |
| MarchRover.OutputInjective | rover.go:109-115 | Two rovers with canonical headings print the same status only if they agree on cell, heading and stopped flag |
| Scenarios.SetupBuildsStart | rover/rover_test.go:15-21 | "(4, 2, EAST)" builds the rover at (4, 2) facing east, not stopped, with no obstacles |
| Scenarios.StartOutput | rover/rover_test.go:23-25 | That rover prints "(4, 2) EAST" |
| Scenarios.MoveForward | rover/rover_test.go:27-38 | F moves east, south, west and north in turn after each `SetDirection` |
| Scenarios.MoveForwardOutputs | rover/rover_test.go:27-38 | The four states print "(5, 2) EAST", "(5, 1) SOUTH", "(4, 1) WEST" and "(4, 2) NORTH" |
| Scenarios.MoveBackward | rover/rover_test.go:40-51 | B moves against each heading in turn |
| Scenarios.MoveBackwardOutputs | rover/rover_test.go:40-51 | The four states print "(3, 2) EAST", "(3, 3) SOUTH", "(4, 3) WEST" and "(4, 2) NORTH" |
| Scenarios.TurnRightFourTimes | rover/rover_test.go:53-58 | Four R commands pass through SOUTH, WEST and NORTH back to EAST without moving |
| Scenarios.TurnLeftFourTimes | rover/rover_test.go:60-65 | Four L commands pass through NORTH, WEST and SOUTH back to EAST without moving |
| Scenarios.TurnOutputs | rover/rover_test.go:53-65 | The states of the turning tests print "(4, 2) SOUTH", "(4, 2) WEST", "(4, 2) NORTH" and "(4, 2) EAST" |
| Scenarios.FullCommand | rover/rover_test.go:67-69 | "FLFFFRFLB" from (4, 2) facing east ends at (6, 4) facing north |
| Scenarios.FullCommandOutput | rover/rover_test.go:67-69 | That state prints "(6, 4) NORTH" |
| Scenarios.FullCommandWithObstacles | rover/rover_test.go:71-74 | With obstacles [[1,4],[3,5],[7,4],[6,5]] the same commands stop at (5, 5) facing east |
| Scenarios.FullCommandWithObstaclesOutput | rover/rover_test.go:71-74 | That state prints "(5, 5) EAST STOPPED" |
| Scenarios.StopIsNotSticky | rover.go:124-128 | After a collision, a clear turn in a later call clears `stopped` |
| Scenarios.InvalidSymbolKeepsPrefix | rover.go:119-122 | "FFxF" commits the two moves and reports 'x' at offset 2 |
| Scenarios.LowerCaseHeadingIsInvalid | rover.go:105-107 | `SetDirection("south")` stores `Other("south")`, and a later F fails with `InvalidDirection` |
| Scenarios.TurnOnOwnCellStops | rover.go:101-103 | With an obstacle placed on the rover's own cell, "RF" stops at once without turning |
| Scenarios.LoneNonAsciiCharacterIsRejected | rover.go:56-62 | "é" is two bytes long, so `NewRover` does not panic on it. It has one field and gives `InvalidInitialization` |

## Left out

- JSON decoding in `SetObstacles` (`encoding/json`) is left out. The
  decoded list is a parameter, and `None` stands for input that does not
  decode.
- SetObstacles: on a decoding failure the model leaves the rover unchanged.
  For a type error in otherwise well-formed JSON, `json.Unmarshal` may
  already have overwritten part of the list. That behaviour belongs to the
  JSON library, which is not part of this model.
- `strconv.Atoi` is modelled by `ParseInt` on 64-bit platforms, with its
  two error kinds, `ErrSyntax` and `ErrRange`. `NewRover` embeds Atoi's
  error in its message, and the model keeps its kind in `InvalidX` and
  `InvalidY`. The wording of the messages is not modelled.
- Go `int` is taken to be 64 bits wide. The 32-bit platform variant is not
  modelled.
- Strings are sequences of Unicode characters, not bytes.
  `input[1 : len(input)-1]` in `NewRover` drops one character at each end
  of an input of two or more characters. Go drops one byte, which differs
  only when the first or last character is not ASCII. Go's decoding of invalid UTF-8 in a command string to U+FFFD is
  not representable.
- `NewRover` stores the caller's obstacle slice itself, not a copy, and
  `json.Unmarshal` in a later `SetObstacles` may decode into that slice's
  backing array, changing what the caller sees. Values here are immutable,
  so this aliasing is not modelled.
- `NewRover` panics on inputs shorter than two bytes. The model states this
  as its precondition, measured in UTF-8 bytes.
- `strings.EqualFold` is modelled only against upper-case ASCII names, which
  are the only names it is called with. It includes the two non-ASCII
  characters that fold to ASCII letters: U+017F (long s) for `S` and U+212A
  (Kelvin sign) for `K`.
- `fmt.Sprintf` error messages are replaced by the `Error` datatype, one
  variant per message. `Output` is modelled as the rendered string.
  `ParseOutput` exists only to state that nothing is lost in rendering.
- The two lookup tables are stored in every Go `Rover` but never change.
  They are module-level constants here.

=== FILE: heading.dfy ===
/** Headings and the two lookup tables of `rover.go`: the unit step of each
    heading and its right and left turn targets. */
module Heading {

  /** A heading. Go's `Direction` is a plain string: the four canonical
      names are represented by their own variant and any other string by
      `Other`, which neither table has an entry for. */
  datatype Direction = East | South | West | North | Other(name: string)

  /** The canonical headings, in the order `toDirection` tries them. */
  const Directions: seq<Direction> := [East, South, West, North]

  /** The string a `Direction` holds in Go. */
  function Name(d: Direction): string
  {
    match d
    case East => "EAST"
    case South => "SOUTH"
    case West => "WEST"
    case North => "NORTH"
    case Other(s) => s
  }

  predicate IsCanonicalName(s: string) {
    s == "EAST" || s == "SOUTH" || s == "WEST" || s == "NORTH"
  }

  /** Go's conversion `Direction(s)` of an arbitrary string. */
  function FromName(s: string): (d: Direction)
    ensures Name(d) == s
    ensures d.Other? <==> !IsCanonicalName(s)
  {
    if s == "EAST" then East
    else if s == "SOUTH" then South
    else if s == "WEST" then West
    else if s == "NORTH" then North
    else Other(s)
  }

  /** Each Go string has exactly one representation: `Other` never holds a
      canonical name. */
  predicate Valid(d: Direction) {
    d.Other? ==> !IsCanonicalName(d.name)
  }

  /** Canonical names are short runs of upper-case ASCII letters. */
  lemma CanonicalNameShape(d: Direction)
    requires d in Directions
    ensures 4 <= |Name(d)| <= 5
    ensures forall i :: 0 <= i < |Name(d)| ==> 'A' <= Name(d)[i] <= 'Z'
  {
  }

  /** Converting a valid direction's string back gives the direction. */
  lemma NameRoundTrip(d: Direction)
    requires Valid(d)
    ensures FromName(Name(d)) == d
  {
  }

  /** `movingDelats`: the step `(dx, dy)` of a forward move. */
  const MovingDeltas: map<Direction, (int, int)> :=
    map[East := (1, 0), South := (0, -1), West := (-1, 0), North := (0, 1)]

  /** `directionDeltas`: the `(right, left)` turn targets. */
  const DirectionDeltas: map<Direction, (Direction, Direction)> :=
    map[East := (South, North), South := (West, East), West := (North, South), North := (East, West)]

  /** Both tables have an entry for exactly the canonical headings. */
  lemma TablesCoverCanonical(d: Direction)
    ensures d in MovingDeltas <==> d in Directions
    ensures d in DirectionDeltas <==> d in Directions
    ensures d in Directions <==> !d.Other?
  {
  }

  /** The heading after a right turn: the first entry of `directionDeltas`. */
  function TurnRight(d: Direction): (t: Direction)
    requires d in DirectionDeltas
    ensures t in Directions && t != d
  {
    DirectionDeltas[d].0
  }

  /** The heading after a left turn: the second entry of `directionDeltas`. */
  function TurnLeft(d: Direction): (t: Direction)
    requires d in DirectionDeltas
    ensures t in Directions && t != d
  {
    DirectionDeltas[d].1
  }

  /** Position of a canonical heading on the clockwise cycle
      East, South, West, North. */
  function CycleIndex(d: Direction): (i: nat)
    requires d in Directions
    ensures i < 4 && Directions[i] == d
  {
    match d
    case East => 0
    case South => 1
    case West => 2
    case North => 3
  }

  /** A right turn advances one place round the cycle, a left turn goes
      back one place, and both stay on canonical headings. */
  lemma TurnsFollowCycle(d: Direction)
    requires d in Directions
    ensures TurnRight(d) in Directions && CycleIndex(TurnRight(d)) == (CycleIndex(d) + 1) % 4
    ensures TurnLeft(d) in Directions && CycleIndex(TurnLeft(d)) == (CycleIndex(d) + 3) % 4
  {
  }

  /** Right and left turns undo each other. */
  lemma TurnsInverse(d: Direction)
    requires d in Directions
    ensures TurnLeft(TurnRight(d)) == d && TurnRight(TurnLeft(d)) == d
  {
  }

  /** Four turns the same way face the original heading again. */
  lemma FourTurnsIdentity(d: Direction)
    requires d in Directions
    ensures TurnRight(TurnRight(TurnRight(TurnRight(d)))) == d
    ensures TurnLeft(TurnLeft(TurnLeft(TurnLeft(d)))) == d
  {
    match d
    case East =>
    case South =>
    case West =>
    case North =>
  }

  /** Every step is one cell along one axis. */
  lemma StepIsUnit(d: Direction)
    requires d in MovingDeltas
    ensures var (dx, dy) := MovingDeltas[d]; (dx == 0) != (dy == 0) && -1 <= dx <= 1 && -1 <= dy <= 1
  {
  }

  /** The two tables agree: turning right rotates the forward step a
      quarter turn clockwise, `(dx, dy)` to `(dy, -dx)`. */
  lemma RightRotatesStep(d: Direction)
    requires d in Directions
    ensures var (dx, dy) := MovingDeltas[d]; MovingDeltas[TurnRight(d)] == (dy, -dx)
  {
  }
}

=== FILE: ints.dfy ===
/** Go's 64-bit `int`: its range, two's-complement wrap-around on addition,
    decimal parsing in the manner of `strconv.Atoi` and decimal rendering
    in the manner of `fmt`'s `%d`. */
module Ints {
  import opened Wrappers

  const MinInt64: int := -0x8000_0000_0000_0000
  const MaxInt64: int := 0x7FFF_FFFF_FFFF_FFFF
  /** Number of distinct 64-bit values */
  const Modulus: int := 0x1_0000_0000_0000_0000

  type Int64 = n: int | MinInt64 <= n <= MaxInt64

  /** The 64-bit value that an unbounded result `n` wraps to. */
  function Wrap(n: int): (r: Int64)
    ensures MinInt64 <= n <= MaxInt64 ==> r == n
  {
    if MinInt64 <= n <= MaxInt64 then n else (n - MinInt64) % Modulus + MinInt64
  }

  /** The wrapped value differs from `n` by a multiple of 2^64. */
  lemma WrapCongruent(n: int)
    ensures (Wrap(n) - n) % Modulus == 0
  {
  }

  /** A step of at most one past either end wraps to the other end. */
  lemma WrapNear(n: int)
    requires MinInt64 - 1 <= n <= MaxInt64 + 1
    ensures Wrap(n) == if n > MaxInt64 then MinInt64 else if n < MinInt64 then MaxInt64 else n
  {
    if n > MaxInt64 {
      assert n - MinInt64 == Modulus;
    } else if n < MinInt64 {
      assert n - MinInt64 == -1;
    }
  }

  /** Adding `d` and then `-d` (a unit step and back) returns to `a`. */
  lemma WrapStepBack(a: Int64, d: int)
    requires -1 <= d <= 1
    ensures Wrap(Wrap(a + d) - d) == a
  {
    WrapNear(a + d);
    WrapNear(Wrap(a + d) - d);
  }

  predicate IsDigit(c: char) {
    '0' <= c <= '9'
  }

  predicate AllDigits(s: string) {
    forall i :: 0 <= i < |s| ==> IsDigit(s[i])
  }

  function DigitValue(c: char): (r: nat)
    requires IsDigit(c)
    ensures r < 10
  {
    (c as int) - ('0' as int)
  }

  function DigitChar(d: nat): (c: char)
    requires d < 10
    ensures IsDigit(c) && DigitValue(c) == d
  {
    (('0' as int) + d) as char
  }

  /** The value of a string of decimal digits, most significant first. */
  function DigitsValue(s: string): nat
    requires AllDigits(s)
  {
    if |s| == 0 then 0 else DigitsValue(s[..|s| - 1]) * 10 + DigitValue(s[|s| - 1])
  }

  /** Shortest decimal digits of `n`: no leading zero, except for zero
      itself. */
  function Digits(n: nat): (s: string)
    ensures |s| > 0 && AllDigits(s)
    ensures s[0] == '0' <==> n == 0
  {
    if n < 10 then [DigitChar(n)] else Digits(n / 10) + [DigitChar(n % 10)]
  }

  /** Decimal rendering of `n`, with a leading `-` when negative. */
  function FormatInt(n: int): (s: string)
    ensures |s| > 0
    ensures forall i :: 0 <= i < |s| ==> IsDigit(s[i]) || s[i] == '-'
    ensures s[0] == '-' <==> n < 0
    ensures n < 0 ==> |s| > 1 && s[1] != '0' && AllDigits(s[1..])
    ensures n >= 0 ==> AllDigits(s) && (s[0] == '0' ==> s == "0")
  {
    if n < 0 then "-" + Digits(-n) else Digits(n)
  }

  /** The largest value of Go's `uint64`, the accumulator `strconv`
      reads digits into. */
  const MaxUint64: int := 0xFFFF_FFFF_FFFF_FFFF

  /** The two causes a `strconv.NumError` from `Atoi` carries:
      `ErrSyntax` ("invalid syntax") and `ErrRange` ("value out of
      range"). */
  datatype NumError = ErrSyntax | ErrRange

  /** The number of decimal digits `s` starts with. */
  function DigitRun(s: string): (k: nat)
    ensures k <= |s| && AllDigits(s[..k])
    ensures k < |s| ==> !IsDigit(s[k])
  {
    if |s| == 0 || !IsDigit(s[0]) then 0
    else
      var k := 1 + DigitRun(s[1..]);
      assert s[..k] == [s[0]] + s[1..][..k - 1];
      k
  }

  /** `s` without its leading sign, if it has one. */
  function Unsigned(s: string): string
  {
    if |s| > 0 && (s[0] == '-' || s[0] == '+') then s[1..] else s
  }

  /** A well-formed decimal literal: an optional sign and at least one
      digit, and nothing else. */
  predicate IsIntLiteral(s: string) {
    |Unsigned(s)| > 0 && AllDigits(Unsigned(s))
  }

  /** The unbounded value of a well-formed decimal literal. */
  function LiteralValue(s: string): int
    requires IsIntLiteral(s)
  {
    var magnitude: int := DigitsValue(Unsigned(s));
    if s[0] == '-' then -magnitude else magnitude
  }

  /** `strconv.Atoi` on a 64-bit platform: it succeeds exactly on a
      well-formed literal whose value fits in 64 bits, with that value.
      `ParseIntErrors` says which error it reports otherwise. */
  function ParseInt(s: string): (r: Result<Int64, NumError>)
    ensures r.Success? <==> IsIntLiteral(s) && MinInt64 <= LiteralValue(s) <= MaxInt64
    ensures r.Success? ==> r.value == LiteralValue(s)
  {
    var digits := Unsigned(s);
    var k := DigitRun(digits);
    assert IsIntLiteral(s) ==> k == |digits| && digits[..k] == digits;
    if DigitsValue(digits[..k]) > MaxUint64 then Failure(ErrRange)
    else if k == 0 || k < |digits| then Failure(ErrSyntax)
    else
      var magnitude: int := DigitsValue(digits);
      var n := if s[0] == '-' then -magnitude else magnitude;
      if MinInt64 <= n <= MaxInt64 then Success(n) else Failure(ErrRange)
  }

  /** The error `Atoi` reports. It reads an optional sign and then the
      digits left to right into an unsigned 64-bit accumulator: the moment
      the digits read so far exceed that accumulator it reports a range
      error, even when a bad character follows; a bad character, or no
      digit at all, met before that is a syntax error; a well-formed
      literal whose value lies outside the signed 64-bit range is a range
      error. */
  lemma ParseIntErrors(s: string)
    ensures IsIntLiteral(s) && !(MinInt64 <= LiteralValue(s) <= MaxInt64) ==> ParseInt(s) == Failure(ErrRange)
    ensures !IsIntLiteral(s) ==>
      (ParseInt(s) == Failure(ErrRange) <==> DigitsValue(Unsigned(s)[..DigitRun(Unsigned(s))]) > MaxUint64)
    ensures !IsIntLiteral(s) && DigitsValue(Unsigned(s)[..DigitRun(Unsigned(s))]) <= MaxUint64 ==>
      ParseInt(s) == Failure(ErrSyntax)
  {
  }

  lemma {:induction false} DigitsRoundTrip(n: nat)
    ensures DigitsValue(Digits(n)) == n
    decreases n
  {
    var s := Digits(n);
    if n >= 10 {
      DigitsRoundTrip(n / 10);
      assert s[..|s| - 1] == Digits(n / 10);
    }
  }

  /** Parsing the rendering of a 64-bit value gives the value back. */
  lemma FormatParseRoundTrip(n: Int64)
    ensures ParseInt(FormatInt(n)) == Success(n)
  {
    var m: int := n;
    if m < 0 {
      var s := FormatInt(m);
      assert s[0] == '-' && Unsigned(s) == Digits(-m);
      DigitsRoundTrip(-m);
    } else {
      var s := FormatInt(m);
      assert s == Digits(m) && IsDigit(s[0]) && Unsigned(s) == s;
      DigitsRoundTrip(m);
    }
  }
}

=== FILE: rover.dfy ===
/** The rover state machine of `rover.go`: construction from an
    initialisation literal, the single-command transition, the obstacle
    test, command execution with obstacle short-circuiting, and the setters
    and status rendering. */
module MarchRover {
  import opened Wrappers
  import opened Ints
  import opened Text
  import opened Heading

  /** The command symbols. */
  const Forward: char := 'F'
  const Backward: char := 'B'
  const Left: char := 'L'
  const Right: char := 'R'

  predicate IsCommand(c: char) {
    c == Forward || c == Backward || c == Right || c == Left
  }

  predicate IsMove(c: char) {
    c == Forward || c == Backward
  }

  /** An obstacle cell, Go's `[2]int`. */
  type Cell = (Int64, Int64)

  /** The errors the package returns, one variant per message it builds. */
  datatype Error =
    | DirectionNotFound(name: string)
    | InvalidDirection(direction: Direction)
    | InvalidCommand(command: char, offset: nat)
    | InvalidInitialization(input: string)
    | InvalidX(field: string, numError: NumError)
    | InvalidY(field: string, numError: NumError)
    | InvalidHeading(field: string, cause: Error)
    | InvalidObstacles

  /** `roverCoordination`: a cell and a heading. */
  datatype Coordination = Coordination(x: Int64, y: Int64, direction: Direction)

  /** `Rover`. The two lookup tables every Go rover carries are the same
      constants for all rovers and live in module `Heading`. */
  datatype Rover = Rover(coordination: Coordination, stopped: bool, obstacles: seq<Cell>)

  /** The rover after an operation, and the error that operation returned. */
  datatype Outcome = Outcome(rover: Rover, error: Option<Error>)

  // ---------------------------------------------------------------- headings

  /** `toDirection`: the canonical heading whose name equals `s` up to case
      folding, tried in the order East, South, West, North. */
  function ToDirection(s: string): (r: Result<Direction, Error>)
    ensures r.Success? ==> r.value in Directions && EqualFold(s, Name(r.value))
    ensures r.Failure? ==> r.error == DirectionNotFound(s)
  {
    if EqualFold(s, "EAST") then Success(East)
    else if EqualFold(s, "SOUTH") then Success(South)
    else if EqualFold(s, "WEST") then Success(West)
    else if EqualFold(s, "NORTH") then Success(North)
    else Failure(DirectionNotFound(s))
  }

  /** `toDirection` fails exactly on the strings that fold to no
      canonical name. */
  lemma ToDirectionFails(s: string)
    ensures ToDirection(s).Failure? <==> forall d :: d in Directions ==> !EqualFold(s, Name(d))
  {
    if ToDirection(s).Failure? {
      forall d | d in Directions
        ensures !EqualFold(s, Name(d))
      {
      }
    }
  }

  /** No string folds to two canonical names, so `toDirection` accepts a
      string exactly when it folds to some name, and then returns that one. */
  lemma ToDirectionExact(s: string, d: Direction)
    requires d in Directions
    ensures ToDirection(s) == Success(d) <==> EqualFold(s, Name(d))
  {
    if EqualFold(s, Name(d)) {
      assert |s| > 0 && FoldsTo(s[0], Name(d)[0]);
      if |s| == 4 {
        assert FoldsTo(s[1], Name(d)[1]);
      }
    }
  }

  /** The canonical names are accepted in upper and in lower case. */
  lemma ToDirectionAcceptsNames(d: Direction)
    requires d in Directions
    ensures ToDirection(Name(d)) == Success(d)
    ensures ToDirection(Lower(Name(d))) == Success(d)
  {
    ToDirectionExact(Name(d), d);
    ToDirectionExact(Lower(Name(d)), d);
  }

  /** `getMovingDelta`: the forward step of the heading, or an error for a
      heading outside the table. */
  function GetMovingDelta(c: Coordination): (r: Result<(int, int), Error>)
    ensures r.Success? <==> !c.direction.Other?
    ensures r.Failure? ==> r.error == InvalidDirection(c.direction)
    ensures r.Success? ==> var (dx, dy) := r.value; (dx == 0) != (dy == 0) && -1 <= dx <= 1 && -1 <= dy <= 1
  {
    TablesCoverCanonical(c.direction);
    if c.direction in MovingDeltas then Success(MovingDeltas[c.direction])
    else Failure(InvalidDirection(c.direction))
  }

  /** `getDirectionDelta`: the `(right, left)` turn targets of the heading,
      or an error for a heading outside the table. */
  function GetDirectionDelta(c: Coordination): (r: Result<(Direction, Direction), Error>)
    ensures r.Success? <==> !c.direction.Other?
    ensures r.Failure? ==> r.error == InvalidDirection(c.direction)
    ensures r.Success? ==> r.value.0 in Directions && r.value.1 in Directions
    ensures r.Success? ==> r.value.0 != c.direction && r.value.1 != c.direction && r.value.0 != r.value.1
  {
    TablesCoverCanonical(c.direction);
    if c.direction in DirectionDeltas then Success(DirectionDeltas[c.direction])
    else Failure(InvalidDirection(c.direction))
  }

  // ---------------------------------------------------------- one command

  /** The cells `b` one 64-bit step away from `a` along one axis. */
  predicate Adjacent(a: Coordination, b: Coordination) {
    || (b.y == a.y && (b.x == Wrap(a.x + 1) || b.x == Wrap(a.x - 1)))
    || (b.x == a.x && (b.y == Wrap(a.y + 1) || b.y == Wrap(a.y - 1)))
  }

  /** `coordinate`: apply one command symbol to a candidate state. `offset`
      is the command's position reported in the error. A Go heading is a
      string, so only a `Valid` heading stands for one: `Other("EAST")`
      names no Go value (the string "EAST" is `East`), and on it this
      function fails where Go's lookup would succeed. `NewRover`,
      `SetDirection` and `Execute` only ever produce `Valid` headings. */
  function Coordinate(c: Coordination, command: char, offset: nat): (r: Result<Coordination, Error>)
    ensures !IsCommand(command) ==> r == Failure(InvalidCommand(command, offset))
    ensures IsCommand(command) ==> (r.Success? <==> !c.direction.Other?)
    ensures IsCommand(command) && c.direction.Other? ==> r == Failure(InvalidDirection(c.direction))
    ensures r.Success? ==> r.value.direction in Directions
  {
    if command == Forward then
      match GetMovingDelta(c)
      case Failure(e) => Failure(e)
      case Success((dx, dy)) => Success(c.(x := Wrap(c.x + dx), y := Wrap(c.y + dy)))
    else if command == Backward then
      match GetMovingDelta(c)
      case Failure(e) => Failure(e)
      case Success((dx, dy)) => Success(c.(x := Wrap(c.x - dx), y := Wrap(c.y - dy)))
    else if command == Right then
      match GetDirectionDelta(c)
      case Failure(e) => Failure(e)
      case Success((right, _)) => Success(c.(direction := right))
    else if command == Left then
      match GetDirectionDelta(c)
      case Failure(e) => Failure(e)
      case Success((_, left)) => Success(c.(direction := left))
    else
      Failure(InvalidCommand(command, offset))
  }

  /** A unit step along one axis, in either sense, reaches an adjacent cell. */
  lemma UnitStepAdjacent(c: Coordination, dx: int, dy: int, next: Coordination)
    requires (dx == 0) != (dy == 0) && -1 <= dx <= 1 && -1 <= dy <= 1
    requires next == c.(x := Wrap(c.x + dx), y := Wrap(c.y + dy))
    ensures Adjacent(c, next)
  {
  }

  /** A move keeps the heading and goes one step along one axis. */
  lemma CoordinateMoves(c: Coordination, command: char, offset: nat)
    requires IsMove(command) && Coordinate(c, command, offset).Success?
    ensures Coordinate(c, command, offset).value.direction == c.direction
    ensures Adjacent(c, Coordinate(c, command, offset).value)
  {
    var (dx, dy) := GetMovingDelta(c).value;
    var next := Coordinate(c, command, offset).value;
    if command == Forward {
      UnitStepAdjacent(c, dx, dy, next);
    } else {
      assert next == c.(x := Wrap(c.x + -dx), y := Wrap(c.y + -dy));
      UnitStepAdjacent(c, -dx, -dy, next);
    }
  }

  /** A turn keeps the cell and changes the heading. */
  lemma CoordinateTurns(c: Coordination, command: char, offset: nat)
    requires !IsMove(command) && Coordinate(c, command, offset).Success?
    ensures var next := Coordinate(c, command, offset).value;
      next.x == c.x && next.y == c.y && next.direction != c.direction
  {
  }

  /** A forward move followed by a backward move returns to the start cell
      with the heading unchanged. */
  lemma ForwardThenBackward(c: Coordination, o1: nat, o2: nat)
    requires Coordinate(c, 'F', o1).Success?
    ensures Coordinate(Coordinate(c, 'F', o1).value, 'B', o2) == Success(c)
  {
    var delta := GetMovingDelta(c).value;
    WrapStepBack(c.x, delta.0);
    WrapStepBack(c.y, delta.1);
  }

  /** A backward move followed by a forward move returns to the start cell. */
  lemma BackwardThenForward(c: Coordination, o1: nat, o2: nat)
    requires Coordinate(c, 'B', o1).Success?
    ensures Coordinate(Coordinate(c, 'B', o1).value, 'F', o2) == Success(c)
  {
    var delta := GetMovingDelta(c).value;
    WrapStepBack(c.x, -delta.0);
    WrapStepBack(c.y, -delta.1);
  }

  /** A right turn followed by a left turn, or a left followed by a right,
      restores the heading. */
  lemma TurnThenTurnBack(c: Coordination, o1: nat, o2: nat)
    requires !c.direction.Other?
    ensures Coordinate(Coordinate(c, 'R', o1).value, 'L', o2) == Success(c)
    ensures Coordinate(Coordinate(c, 'L', o1).value, 'R', o2) == Success(c)
  {
    var d := c.direction;
    TablesCoverCanonical(d);
    TurnsInverse(d);
    CoordinateUsesTables(c, o1);
    assert TurnRight(d) in Directions && TurnLeft(d) in Directions;
    CoordinateUsesTables(c.(direction := TurnRight(d)), o2);
    CoordinateUsesTables(c.(direction := TurnLeft(d)), o2);
  }

  /** Moves go along the heading's table step and turns to its table
      targets: the two tables are what the transition consults. */
  lemma CoordinateUsesTables(c: Coordination, o: nat)
    requires c.direction in Directions
    ensures var (dx, dy) := MovingDeltas[c.direction];
      && Coordinate(c, 'F', o) == Success(c.(x := Wrap(c.x + dx), y := Wrap(c.y + dy)))
      && Coordinate(c, 'B', o) == Success(c.(x := Wrap(c.x - dx), y := Wrap(c.y - dy)))
    ensures Coordinate(c, 'R', o) == Success(c.(direction := TurnRight(c.direction)))
    ensures Coordinate(c, 'L', o) == Success(c.(direction := TurnLeft(c.direction)))
  {
    TablesCoverCanonical(c.direction);
  }

  // ------------------------------------------------------------ obstacles

  /** `isOnObstacle`: whether the cell of `c` is one of the obstacles. */
  function IsOnObstacle(c: Coordination, obstacles: seq<Cell>): (on: bool)
    ensures on <==> (c.x, c.y) in obstacles
  {
    if |obstacles| == 0 then false
    else (obstacles[0].0 == c.x && obstacles[0].1 == c.y) || IsOnObstacle(c, obstacles[1..])
  }

  // --------------------------------------------------------- command string

  /** Bytes in the UTF-8 encoding of `c`. */
  function RuneLen(c: char): (n: nat)
    ensures 1 <= n <= 4
  {
    if c as int < 0x80 then 1
    else if c as int < 0x800 then 2
    else if c as int < 0x1_0000 then 3
    else 4
  }

  /** Bytes in the UTF-8 encoding of `s`. */
  function Utf8Len(s: string): (n: nat)
    ensures |s| <= n <= 4 * |s|
  {
    if |s| == 0 then 0 else Utf8Len(s[..|s| - 1]) + RuneLen(s[|s| - 1])
  }

  /** The index Go's `range` over a string reports for its `i`-th character:
      the byte offset of that character. */
  function ByteOffset(commands: string, i: nat): (offset: nat)
    requires i <= |commands|
    ensures i <= offset <= 4 * i
  {
    Utf8Len(commands[..i])
  }

  /** Every command symbol is one byte long, so up to the first invalid
      symbol the byte offset Go reports is the character index. */
  lemma {:induction false} ByteOffsetOfCommands(commands: string, k: nat)
    requires k <= |commands|
    requires forall j :: 0 <= j < k ==> IsCommand(commands[j])
    ensures ByteOffset(commands, k) == k
  {
    if k > 0 {
      ByteOffsetOfCommands(commands, k - 1);
      assert commands[..k][..k - 1] == commands[..k - 1];
    }
  }

  /** The commands a clear prefix consists of are all valid symbols. */
  lemma ClearPrefixIsCommands(c: Coordination, commands: string, k: nat, obstacles: seq<Cell>)
    requires k <= |commands| && Clear(c, commands, k, obstacles)
    ensures forall j :: 0 <= j < k ==> IsCommand(commands[j])
  {
    forall j | 0 <= j < k
      ensures IsCommand(commands[j])
    {
      assert Run(c, commands, j + 1).Success?;
      if j > 0 {
        assert Run(c, commands, j).Success?;
      }
    }
  }

  /** The candidate state after the first `k` commands, applied one after
      another from `c` without looking at obstacles: a left fold of
      `Coordinate` over the command string. */
  function Run(c: Coordination, commands: string, k: nat): Result<Coordination, Error>
    requires k <= |commands|
  {
    if k == 0 then Success(c)
    else
      var prev :- Run(c, commands, k - 1);
      Coordinate(prev, commands[k - 1], ByteOffset(commands, k - 1))
  }

  /** Each of the first `k` commands applies and lands off every obstacle. */
  predicate Clear(c: Coordination, commands: string, k: nat, obstacles: seq<Cell>)
    requires k <= |commands|
  {
    forall j :: 1 <= j <= k ==> Run(c, commands, j).Success? && !IsOnObstacle(Run(c, commands, j).value, obstacles)
  }

  /** The loop of `Execute` from its `i`-th iteration. The candidate state
      always equals the committed one at the head of an iteration, because
      the loop either commits the candidate or leaves. */
  function ExecuteFrom(r: Rover, commands: string, i: nat): Outcome
    requires i <= |commands|
    decreases |commands| - i
  {
    if i == |commands| then Outcome(r, None)
    else
      match Coordinate(r.coordination, commands[i], ByteOffset(commands, i))
      case Failure(e) => Outcome(r, Some(e))
      case Success(candidate) =>
        if IsOnObstacle(candidate, r.obstacles) then Outcome(r.(stopped := true), None)
        else ExecuteFrom(r.(coordination := candidate, stopped := false), commands, i + 1)
  }

  /** What the loop keeps from any iteration on: it never changes the
      obstacles, it commits only the starting cell or a cell off every
      obstacle, it keeps headings validly represented, it reports only
      command and heading errors, and it touches `stopped` only when a
      command is left to run. */
  lemma {:induction false} ExecuteFromInvariants(r: Rover, commands: string, i: nat)
    requires i <= |commands|
    ensures var out := ExecuteFrom(r, commands, i);
      && out.rover.obstacles == r.obstacles
      && (out.rover.coordination == r.coordination || !IsOnObstacle(out.rover.coordination, r.obstacles))
      && (Valid(r.coordination.direction) ==> Valid(out.rover.coordination.direction))
      && (out.error.Some? ==> out.error.value.InvalidCommand? || out.error.value.InvalidDirection?)
      && (out.rover.stopped != r.stopped ==> i < |commands|)
    decreases |commands| - i
  {
    if i < |commands| {
      match Coordinate(r.coordination, commands[i], ByteOffset(commands, i))
      case Failure(e) =>
      case Success(candidate) =>
        if !IsOnObstacle(candidate, r.obstacles) {
          ExecuteFromInvariants(r.(coordination := candidate, stopped := false), commands, i + 1);
        }
    }
  }

  /** `Execute`: run the command string against the rover. The call never
      changes the obstacles, keeps a validly represented heading so, reports
      only command and heading errors, and does nothing at all for an empty
      command string. */
  function Execute(r: Rover, commands: string): (out: Outcome)
    ensures out.rover.obstacles == r.obstacles
    ensures Valid(r.coordination.direction) ==> Valid(out.rover.coordination.direction)
    ensures out.error.Some? ==> out.error.value.InvalidCommand? || out.error.value.InvalidDirection?
    ensures |commands| == 0 ==> out == Outcome(r, None)
  {
    ExecuteFromInvariants(r, commands, 0);
    ExecuteFrom(r, commands, 0)
  }

  /** A call leaves the rover where it was or on a cell off every
      obstacle: it never commits a collision. */
  lemma ExecuteCommitsOnlyClearCells(r: Rover, commands: string)
    ensures var out := Execute(r, commands);
      out.rover.coordination == r.coordination || !IsOnObstacle(out.rover.coordination, r.obstacles)
  {
    ExecuteFromInvariants(r, commands, 0);
  }

  /** The rover once the first `k` commands have all been committed. */
  function After(r: Rover, commands: string, k: nat): Rover
    requires k <= |commands| && Run(r.coordination, commands, k).Success?
  {
    r.(coordination := Run(r.coordination, commands, k).value, stopped := if k == 0 then r.stopped else false)
  }

  /** While the commands land clear, each iteration commits its candidate:
      the loop reaches iteration `k` in the state `After(r, commands, k)`. */
  lemma {:induction false} ExecuteSkipsClearPrefix(r: Rover, commands: string, i: nat, k: nat)
    requires i <= k <= |commands|
    requires Clear(r.coordination, commands, k, r.obstacles)
    ensures Run(r.coordination, commands, i).Success? && Run(r.coordination, commands, k).Success?
    ensures ExecuteFrom(After(r, commands, i), commands, i) == ExecuteFrom(After(r, commands, k), commands, k)
    decreases k - i
  {
    if i < k {
      var c := r.coordination;
      assert Run(c, commands, i + 1).Success?;
      var candidate := Run(c, commands, i + 1).value;
      assert Coordinate(After(r, commands, i).coordination, commands[i], ByteOffset(commands, i)) == Success(candidate);
      assert !IsOnObstacle(candidate, r.obstacles);
      assert After(r, commands, i).(coordination := candidate, stopped := false) == After(r, commands, i + 1);
      ExecuteSkipsClearPrefix(r, commands, i + 1, k);
    }
  }

  /** When no command hits an obstacle or fails, every command is committed:
      the rover ends in the left fold of `Coordinate` over the commands, no
      error is returned, and `stopped` is cleared unless there were no
      commands at all. */
  lemma ExecuteAllClear(r: Rover, commands: string)
    requires Clear(r.coordination, commands, |commands|, r.obstacles)
    ensures Run(r.coordination, commands, |commands|).Success?
    ensures Execute(r, commands) == Outcome(After(r, commands, |commands|), None)
  {
    ExecuteSkipsClearPrefix(r, commands, 0, |commands|);
  }

  /** When command `k` is the first whose candidate lands on an obstacle,
      the rover keeps the state after the first `k` commands, sets
      `stopped`, skips the rest and returns no error. */
  lemma ExecuteStopsAtObstacle(r: Rover, commands: string, k: nat)
    requires k < |commands|
    requires Clear(r.coordination, commands, k, r.obstacles)
    requires Run(r.coordination, commands, k + 1).Success?
    requires IsOnObstacle(Run(r.coordination, commands, k + 1).value, r.obstacles)
    ensures Run(r.coordination, commands, k).Success?
    ensures Execute(r, commands) == Outcome(After(r, commands, k).(stopped := true), None)
  {
    ExecuteSkipsClearPrefix(r, commands, 0, k);
  }

  /** When command `k` is the first that fails, the first `k` commands stay
      committed, `stopped` keeps the value of the last command evaluated, and
      the failure of command `k` is returned. */
  lemma ExecuteFailsAt(r: Rover, commands: string, k: nat)
    requires k < |commands|
    requires Clear(r.coordination, commands, k, r.obstacles)
    requires Run(r.coordination, commands, k + 1).Failure?
    ensures Run(r.coordination, commands, k).Success?
    ensures Execute(r, commands) == Outcome(After(r, commands, k), Some(Run(r.coordination, commands, k + 1).error))
  {
    ExecuteSkipsClearPrefix(r, commands, 0, k);
  }

  /** A symbol other than F, B, R and L is reported with itself and its
      index; the commands before it stay committed. */
  lemma ExecuteInvalidCommand(r: Rover, commands: string, k: nat)
    requires k < |commands| && !IsCommand(commands[k])
    requires Clear(r.coordination, commands, k, r.obstacles)
    ensures Run(r.coordination, commands, k).Success?
    ensures Execute(r, commands) == Outcome(After(r, commands, k), Some(InvalidCommand(commands[k], k)))
  {
    ExecuteSkipsClearPrefix(r, commands, 0, k);
    ClearPrefixIsCommands(r.coordination, commands, k, r.obstacles);
    ByteOffsetOfCommands(commands, k);
  }

  /** The three cases above are exhaustive: either every command lands
      clear, or there is a first command that fails or lands on an obstacle. */
  lemma {:induction false} ExecuteCases(c: Coordination, commands: string, obstacles: seq<Cell>)
    ensures || Clear(c, commands, |commands|, obstacles)
            || exists k :: 0 <= k < |commands| && Clear(c, commands, k, obstacles) && !Clear(c, commands, k + 1, obstacles)
  {
    var k := 0;
    while k < |commands| && Clear(c, commands, k + 1, obstacles)
      invariant k <= |commands| && Clear(c, commands, k, obstacles)
    {
      k := k + 1;
    }
  }

  /** `Utf8Len` adds up over concatenation. */
  lemma {:induction false} Utf8LenConcat(a: string, b: string)
    ensures Utf8Len(a + b) == Utf8Len(a) + Utf8Len(b)
    decreases |b|
  {
    if |b| > 0 {
      var b' := b[..|b| - 1];
      assert (a + b)[..|a + b| - 1] == a + b';
      Utf8LenConcat(a, b');
    } else {
      assert a + b == a;
    }
  }

  /** An error with its command offset, if it has one, moved `n` bytes on. */
  function ShiftError(e: Error, n: nat): Error
  {
    match e
    case InvalidCommand(command, offset) => InvalidCommand(command, offset + n)
    case _ => e
  }

  /** The outcome with the offset of its error moved `n` bytes on. */
  function ShiftOffset(out: Outcome, n: nat): (shifted: Outcome)
    ensures shifted.rover == out.rover && shifted.error.Some? == out.error.Some?
  {
    if out.error.Some? then out.(error := Some(ShiftError(out.error.value, n))) else out
  }

  /** Running the commands of `a` inside `a + b` behaves as running `a`
      alone, as long as `a` neither fails nor stops. */
  lemma {:induction false} ExecuteConcatPrefix(r: Rover, a: string, b: string, i: nat)
    requires i <= |a|
    requires ExecuteFrom(r, a, i).error.None? && !ExecuteFrom(r, a, i).rover.stopped
    ensures ExecuteFrom(r, a + b, i) == ExecuteFrom(ExecuteFrom(r, a, i).rover, a + b, |a|)
    decreases |a| - i
  {
    if i < |a| {
      assert (a + b)[i] == a[i];
      assert (a + b)[..i] == a[..i];
      match Coordinate(r.coordination, a[i], ByteOffset(a, i))
      case Failure(e) =>
      case Success(candidate) =>
        if !IsOnObstacle(candidate, r.obstacles) {
          ExecuteConcatPrefix(r.(coordination := candidate, stopped := false), a, b, i + 1);
        }
    }
  }

  /** The `j`-th command of `b` sits `Utf8Len(a)` bytes further on in `a + b`. */
  lemma ByteOffsetInConcat(a: string, b: string, j: nat)
    requires j <= |b|
    ensures ByteOffset(a + b, |a| + j) == Utf8Len(a) + ByteOffset(b, j)
  {
    var prefix := (a + b)[..|a| + j];
    assert prefix == a + b[..j];
    Utf8LenConcat(a, b[..j]);
    assert ByteOffset(a + b, |a| + j) == Utf8Len(prefix);
  }

  /** A command read at an offset `n` bytes further on fails or succeeds
      alike; only the offset of an invalid symbol moves with it. */
  lemma CoordinateShift(c: Coordination, command: char, offset: nat, n: nat)
    ensures Coordinate(c, command, offset).Success? ==> Coordinate(c, command, offset + n) == Coordinate(c, command, offset)
    ensures Coordinate(c, command, offset).Failure? ==>
      Coordinate(c, command, offset + n) == Failure(ShiftError(Coordinate(c, command, offset).error, n))
  {
  }

  /** One iteration of the loop over `a + b` at a command of `b` does what
      the loop over `b` alone does there: either both commit the same state
      `next` and go on, or both end the call, with the offset of an invalid
      symbol moved on by `Utf8Len(a)`. */
  lemma ExecuteConcatSuffixStep(r: Rover, a: string, b: string, j: nat) returns (goesOn: bool, next: Rover)
    requires j < |b|
    ensures goesOn ==>
      && ExecuteFrom(r, a + b, |a| + j) == ExecuteFrom(next, a + b, |a| + (j + 1))
      && ExecuteFrom(r, b, j) == ExecuteFrom(next, b, j + 1)
    ensures !goesOn ==> ExecuteFrom(r, a + b, |a| + j) == ShiftOffset(ExecuteFrom(r, b, j), Utf8Len(a))
  {
    var command := b[j];
    assert (a + b)[|a| + j] == command;
    ByteOffsetInConcat(a, b, j);
    var offset := ByteOffset(b, j);
    CoordinateShift(r.coordination, command, offset, Utf8Len(a));
    var alone := Coordinate(r.coordination, command, offset);
    var inside := Coordinate(r.coordination, command, Utf8Len(a) + offset);
    if alone.Failure? {
      assert ExecuteFrom(r, b, j) == Outcome(r, Some(alone.error));
      assert ExecuteFrom(r, a + b, |a| + j) == Outcome(r, Some(inside.error));
      goesOn, next := false, r;
    } else if IsOnObstacle(alone.value, r.obstacles) {
      assert ExecuteFrom(r, b, j) == Outcome(r.(stopped := true), None);
      assert ExecuteFrom(r, a + b, |a| + j) == Outcome(r.(stopped := true), None);
      goesOn, next := false, r;
    } else {
      goesOn, next := true, r.(coordination := alone.value, stopped := false);
    }
  }

  /** Running the commands of `b` inside `a + b` behaves as running `b`
      alone, with command offsets counted from the end of `a`. */
  lemma {:induction false} ExecuteConcatSuffix(r: Rover, a: string, b: string, j: nat)
    requires j <= |b|
    ensures ExecuteFrom(r, a + b, |a| + j) == ShiftOffset(ExecuteFrom(r, b, j), Utf8Len(a))
    decreases |b| - j
  {
    if j < |b| {
      var goesOn, next := ExecuteConcatSuffixStep(r, a, b, j);
      if goesOn {
        ExecuteConcatSuffix(next, a, b, j + 1);
      }
    }
  }

  /** One call with `a + b` is a call with `a` followed by a call with `b`,
      when the first call runs to the end of `a`: the second call starts
      where the first committed, and an invalid symbol in `b` is reported at
      its offset in `a + b`. */
  lemma ExecuteConcat(r: Rover, a: string, b: string)
    requires Execute(r, a).error.None? && (|a| > 0 ==> !Execute(r, a).rover.stopped)
    ensures Execute(r, a + b) == ShiftOffset(Execute(Execute(r, a).rover, b), Utf8Len(a))
  {
    if |a| == 0 {
      assert a + b == b;
      var out := Execute(r, b);
      if out.error.Some? {
        assert ShiftError(out.error.value, 0) == out.error.value;
      }
    } else {
      ExecuteConcatPrefix(r, a, b, 0);
      ExecuteConcatSuffix(Execute(r, a).rover, a, b, 0);
    }
  }

  /** The byte offset only ever appears in the error: a command that
      succeeds gives the same candidate whatever offset it is passed. */
  lemma CoordinateOffsetOnlyInError(c: Coordination, command: char, o1: nat, o2: nat)
    requires Coordinate(c, command, o1).Success?
    ensures Coordinate(c, command, o2) == Coordinate(c, command, o1)
  {
  }

  /** One iteration that lands clear commits its candidate, clears
      `stopped`, and goes on with the next command. */
  lemma ExecuteClearStep(r: Rover, commands: string, i: nat, next: Coordination)
    requires i < |commands|
    requires Coordinate(r.coordination, commands[i], 0) == Success(next)
    requires !IsOnObstacle(next, r.obstacles)
    ensures ExecuteFrom(r, commands, i) == ExecuteFrom(Rover(next, false, r.obstacles), commands, i + 1)
  {
    CoordinateOffsetOnlyInError(r.coordination, commands[i], 0, ByteOffset(commands, i));
  }

  /** One iteration whose candidate is an obstacle sets `stopped` and ends
      the call, with the rest of the commands not applied. */
  lemma ExecuteBlockedStep(r: Rover, commands: string, i: nat)
    requires i < |commands|
    requires Coordinate(r.coordination, commands[i], 0).Success?
    requires IsOnObstacle(Coordinate(r.coordination, commands[i], 0).value, r.obstacles)
    ensures ExecuteFrom(r, commands, i) == Outcome(r.(stopped := true), None)
  {
    CoordinateOffsetOnlyInError(r.coordination, commands[i], 0, ByteOffset(commands, i));
  }

  /** A turn while the rover already sits on an obstacle (possible after
      `SetObstacles`, which does not re-check the current cell) is not
      committed: it sets `stopped` and ends the call. */
  lemma TurnOnObstacleStops(r: Rover, commands: string)
    requires |commands| > 0 && (commands[0] == Right || commands[0] == Left)
    requires r.coordination.direction in Directions
    requires IsOnObstacle(r.coordination, r.obstacles)
    ensures Execute(r, commands) == Outcome(r.(stopped := true), None)
  {
    TablesCoverCanonical(r.coordination.direction);
  }

  // ------------------------------------------------ construction and setters

  /** The initialisation literal `"(x, y, HEADING)"` for a state. */
  function Literal(x: Int64, y: Int64, d: Direction): string
  {
    "(" + FormatInt(x) + ", " + FormatInt(y) + ", " + Name(d) + ")"
  }

  /** The text `input[1 : len(input)-1]` that `NewRover` splits: the input
      without its first and last characters. Go cuts bytes, not characters.
      For an input of two or more characters this model cuts characters,
      which differs from Go only when the first or last character is not
      ASCII. A single character is cut to the empty text: Go
      keeps the one to three continuation bytes inside it, which hold
      neither ',' nor ' ', so both split into one field. */
  function Inner(input: string): (inner: string)
    ensures |input| >= 2 ==> inner == input[1..|input| - 1]
    ensures |input| < 2 ==> Split(inner, ", ") == [""]
  {
    if |input| >= 2 then input[1..|input| - 1] else ""
  }

  /** `NewRover`: drop the first and last characters, split the rest on
      `", "` into exactly three fields, parse x and y as integers and the
      third field as a heading; a missing obstacle list becomes empty.
      Go panics on inputs shorter than two bytes, which is the precondition;
      a single non-ASCII character is long enough, and has one field. */
  function NewRover(input: string, obstacles: Option<seq<Cell>>): (r: Result<Rover, Error>)
    requires Utf8Len(input) >= 2
    ensures var fields := Split(Inner(input), ", ");
      r.Success? <==>
        |fields| == 3 && ParseInt(fields[0]).Success? && ParseInt(fields[1]).Success? && ToDirection(fields[2]).Success?
    ensures var fields := Split(Inner(input), ", ");
      r.Success? ==>
        && r.value.coordination == Coordination(ParseInt(fields[0]).value, ParseInt(fields[1]).value, ToDirection(fields[2]).value)
        && !r.value.stopped
        && r.value.obstacles == (if obstacles.Some? then obstacles.value else [])
    ensures |Split(Inner(input), ", ")| != 3 ==> r == Failure(InvalidInitialization(input))
    ensures var fields := Split(Inner(input), ", ");
      |fields| == 3 && ParseInt(fields[0]).Failure? ==> r == Failure(InvalidX(fields[0], ParseInt(fields[0]).error))
    ensures var fields := Split(Inner(input), ", ");
      |fields| == 3 && ParseInt(fields[0]).Success? && ParseInt(fields[1]).Failure? ==>
        r == Failure(InvalidY(fields[1], ParseInt(fields[1]).error))
    ensures var fields := Split(Inner(input), ", ");
      |fields| == 3 && ParseInt(fields[0]).Success? && ParseInt(fields[1]).Success? && ToDirection(fields[2]).Failure? ==>
        r == Failure(InvalidHeading(fields[2], DirectionNotFound(fields[2])))
  {
    var fields := Split(Inner(input), ", ");
    if |fields| != 3 then Failure(InvalidInitialization(input))
    else if ParseInt(fields[0]).Failure? then Failure(InvalidX(fields[0], ParseInt(fields[0]).error))
    else if ParseInt(fields[1]).Failure? then Failure(InvalidY(fields[1], ParseInt(fields[1]).error))
    else if ToDirection(fields[2]).Failure? then Failure(InvalidHeading(fields[2], ToDirection(fields[2]).error))
    else
      var coordination := Coordination(ParseInt(fields[0]).value, ParseInt(fields[1]).value, ToDirection(fields[2]).value);
      Success(Rover(coordination, false, obstacles.GetOr([])))
  }

  /** The text between the brackets of a literal is its fields joined
      with `", "`. */
  lemma LiteralInner(x: Int64, y: Int64, d: Direction)
    ensures var input := Literal(x, y, d);
      |input| >= 2 && input[1..|input| - 1] == Join([FormatInt(x), FormatInt(y), Name(d)], ", ")
  {
    var inner := FormatInt(x) + ", " + FormatInt(y) + ", " + Name(d);
    LiteralBracketed(x, y, d);
    Unbracket(inner);
    JoinThree(FormatInt(x), FormatInt(y), Name(d), ", ");
  }

  /** A literal is its fields, comma-separated, between brackets. */
  lemma LiteralBracketed(x: Int64, y: Int64, d: Direction)
    ensures Literal(x, y, d) == "(" + (FormatInt(x) + ", " + FormatInt(y) + ", " + Name(d)) + ")"
  {
  }

  /** Dropping the first and last characters of `"(" + inner + ")"`. */
  lemma Unbracket(inner: string)
    ensures ("(" + inner + ")")[1..|inner| + 1] == inner
  {
  }

  /** No field of a literal holds a comma. */
  lemma LiteralFieldsCommaFree(x: Int64, y: Int64, d: Direction)
    requires d in Directions
    ensures forall i :: 0 <= i < 3 ==> ',' !in [FormatInt(x), FormatInt(y), Name(d)][i]
  {
    CanonicalNameShape(d);
    assert ',' !in Name(d);
  }

  /** The text between the brackets of a literal splits into its three
      fields. */
  lemma LiteralFields(x: Int64, y: Int64, d: Direction)
    requires d in Directions
    ensures var input := Literal(x, y, d);
      |input| >= 2 && Split(input[1..|input| - 1], ", ") == [FormatInt(x), FormatInt(y), Name(d)]
  {
    LiteralInner(x, y, d);
    LiteralFieldsCommaFree(x, y, d);
    SplitJoin([FormatInt(x), FormatInt(y), Name(d)], ", ");
  }

  /** The literal of any state with a canonical heading builds a rover in
      that state, not stopped. */
  lemma NewRoverFromLiteral(x: Int64, y: Int64, d: Direction, obstacles: Option<seq<Cell>>)
    requires d in Directions
    ensures NewRover(Literal(x, y, d), obstacles) == Success(Rover(Coordination(x, y, d), false, obstacles.GetOr([])))
  {
    LiteralFields(x, y, d);
    FormatParseRoundTrip(x);
    FormatParseRoundTrip(y);
    ToDirectionAcceptsNames(d);
  }

  /** `SetObstacles`: the decoded JSON list replaces the obstacles wholesale;
      `None` stands for input that does not decode. Neither position,
      heading nor `stopped` is re-evaluated. */
  function SetObstacles(r: Rover, decoded: Option<seq<Cell>>): (out: Outcome)
    ensures out.rover.coordination == r.coordination && out.rover.stopped == r.stopped
    ensures decoded.Some? ==> out.rover.obstacles == decoded.value && out.error.None?
    ensures decoded.None? ==> out == Outcome(r, Some(InvalidObstacles))
  {
    match decoded
    case Some(cells) => Outcome(r.(obstacles := cells), None)
    case None => Outcome(r, Some(InvalidObstacles))
  }

  /** `SetDirection`: store any string as the heading; nothing else changes. */
  function SetDirection(r: Rover, name: string): (out: Rover)
    ensures Name(out.coordination.direction) == name && Valid(out.coordination.direction)
    ensures out.coordination.x == r.coordination.x && out.coordination.y == r.coordination.y
    ensures out.stopped == r.stopped && out.obstacles == r.obstacles
  {
    r.(coordination := r.coordination.(direction := FromName(name)))
  }

  /** `Output`: `"(x, y) HEADING"`, followed by `" STOPPED"` when stopped. */
  function Output(r: Rover): string
  {
    "(" + FormatInt(r.coordination.x) + ", " + FormatInt(r.coordination.y) + ") "
      + Name(r.coordination.direction) + (if r.stopped then " STOPPED" else "")
  }

  /** The fields a status line shows. */
  datatype Status = Status(x: Int64, y: Int64, heading: string, stopped: bool)

  /** Splits a trailing `" STOPPED"` off the end of a status line. */
  function SplitStopped(tail: string): (string, bool)
  {
    if |tail| >= 8 && tail[|tail| - 8..] == " STOPPED" then (tail[..|tail| - 8], true) else (tail, false)
  }

  /** Reads a status line back into its fields: the inverse of `Output` for
      canonical headings. */
  function ParseOutput(s: string): Option<Status>
  {
    if |s| == 0 || s[0] != '(' then None
    else
      match Find(s[1..], ", ")
      case None => None
      case Some(i) =>
        var rest := s[1..][i + 2..];
        match Find(rest, ") ")
        case None => None
        case Some(j) =>
          var (heading, stopped) := SplitStopped(rest[j + 2..]);
          match (ParseInt(s[1..][..i]), ParseInt(rest[..j]))
          case (Success(x), Success(y)) => Some(Status(x, y, heading, stopped))
          case _ => None
  }

  lemma FormatIntHasNoPunctuation(n: int)
    ensures ',' !in FormatInt(n) && ')' !in FormatInt(n)
  {
  }

  /** A heading shorter than the suffix is told apart from it. */
  lemma SplitStoppedRoundTrip(name: string, stopped: bool)
    requires |name| < 8
    ensures SplitStopped(name + (if stopped then " STOPPED" else "")) == (name, stopped)
  {
    var tail := name + (if stopped then " STOPPED" else "");
    if stopped {
      assert tail[|tail| - 8..] == " STOPPED";
      assert tail[..|tail| - 8] == name;
    } else {
      assert tail == name;
    }
  }

  /** Where the separators of a status line are found, when the numbers
      hold neither of them. */
  lemma StatusLineCuts(xs: string, ys: string, tail: string)
    requires ',' !in xs && ')' !in ys
    ensures var s := "(" + xs + ", " + ys + ") " + tail;
      var rest := ys + ") " + tail;
      && |s| > 0 && s[0] == '(' && s[1..] == xs + ", " + rest
      && Find(s[1..], ", ") == Some(|xs|) && s[1..][..|xs|] == xs && s[1..][|xs| + 2..] == rest
      && Find(rest, ") ") == Some(|ys|) && rest[..|ys|] == ys && rest[|ys| + 2..] == tail
  {
    var s := "(" + xs + ", " + ys + ") " + tail;
    var rest := ys + ") " + tail;
    assert s[1..] == xs + ", " + rest;
    FindAfterFree(xs, ", ", rest);
    FindAfterFree(ys, ") ", tail);
  }

  /** The two number fields and the tail of a status line are found again
      when the numbers hold neither separator. */
  lemma ParseOutputFields(xs: string, ys: string, tail: string, x: Int64, y: Int64)
    requires ',' !in xs && ')' !in ys
    requires ParseInt(xs) == Success(x) && ParseInt(ys) == Success(y)
    ensures ParseOutput("(" + xs + ", " + ys + ") " + tail) == Some(Status(x, y, SplitStopped(tail).0, SplitStopped(tail).1))
  {
    StatusLineCuts(xs, ys, tail);
  }

  /** `Output` loses nothing for a canonical heading: the status line
      determines the cell, the heading and the stopped flag. */
  lemma OutputRoundTrip(r: Rover)
    requires r.coordination.direction in Directions
    ensures ParseOutput(Output(r)) ==
      Some(Status(r.coordination.x, r.coordination.y, Name(r.coordination.direction), r.stopped))
  {
    var c := r.coordination;
    var xs, ys, name := FormatInt(c.x), FormatInt(c.y), Name(c.direction);
    var tail := name + (if r.stopped then " STOPPED" else "");
    assert Output(r) == "(" + xs + ", " + ys + ") " + tail;
    FormatIntHasNoPunctuation(c.x);
    FormatIntHasNoPunctuation(c.y);
    FormatParseRoundTrip(c.x);
    FormatParseRoundTrip(c.y);
    ParseOutputFields(xs, ys, tail, c.x, c.y);
    CanonicalNameShape(c.direction);
    SplitStoppedRoundTrip(name, r.stopped);
  }

  /** Two rovers with canonical headings print the same status line only
      when they agree on cell, heading and stopped flag. */
  lemma OutputInjective(r1: Rover, r2: Rover)
    requires r1.coordination.direction in Directions && r2.coordination.direction in Directions
    requires Output(r1) == Output(r2)
    ensures r1.coordination == r2.coordination && r1.stopped == r2.stopped
  {
    OutputRoundTrip(r1);
    OutputRoundTrip(r2);
    var d1, d2 := r1.coordination.direction, r2.coordination.direction;
    assert Name(d1) == Name(d2);
    NameRoundTrip(d1);
    NameRoundTrip(d2);
  }
}

=== FILE: scenarios.dfy ===
/** The scenarios of `rover/rover_test.go`, and a few more that show the
    less obvious paths of `Execute`, as concrete facts about the model. */
module Scenarios {
  import opened Wrappers
  import Ints
  import opened Heading
  import opened MarchRover

  /** The rover every test starts from. */
  const Start: Rover := Rover(Coordination(4, 2, East), false, [])

  function At(x: int, y: int, d: Direction, stopped: bool): Rover
    requires -10 <= x <= 10 && -10 <= y <= 10
  {
    Rover(Coordination(x, y, d), stopped, [])
  }

  /** The initialisation string of every test, `"(4, 2, EAST)"`, builds
      `Start`: the rover at (4, 2) facing east, not stopped, with no
      obstacles. */
  lemma SetupBuildsStart(input: string)
    requires input == "(4, 2, EAST)"
    ensures NewRover(input, None) == Success(Start)
  {
    assert Ints.FormatInt(4) == "4" && Ints.FormatInt(2) == "2";
    assert input == Literal(4, 2, East);
    NewRoverFromLiteral(4, 2, East, None);
  }

  lemma StartOutput()
    ensures Output(Start) == "(4, 2) EAST"
  {
    assert Ints.FormatInt(4) == "4" && Ints.FormatInt(2) == "2";
  }

  // Each lemma below states one step of a test: the command it runs and
  // the state the rover ends in. The lemma named after the test gathers
  // them.

  lemma ForwardEast()
    ensures Execute(Start, "F") == Outcome(At(5, 2, East, false), None)
  {
  }

  lemma ForwardSouth()
    ensures Execute(SetDirection(At(5, 2, East, false), "SOUTH"), "F") == Outcome(At(5, 1, South, false), None)
  {
  }

  lemma ForwardWest()
    ensures Execute(SetDirection(At(5, 1, South, false), "WEST"), "F") == Outcome(At(4, 1, West, false), None)
  {
  }

  lemma ForwardNorth()
    ensures Execute(SetDirection(At(4, 1, West, false), "NORTH"), "F") == Outcome(At(4, 2, North, false), None)
  {
  }

  lemma MoveForward()
    ensures Execute(Start, "F") == Outcome(At(5, 2, East, false), None)
    ensures Execute(SetDirection(At(5, 2, East, false), "SOUTH"), "F") == Outcome(At(5, 1, South, false), None)
    ensures Execute(SetDirection(At(5, 1, South, false), "WEST"), "F") == Outcome(At(4, 1, West, false), None)
    ensures Execute(SetDirection(At(4, 1, West, false), "NORTH"), "F") == Outcome(At(4, 2, North, false), None)
  {
    ForwardEast();
    ForwardSouth();
    ForwardWest();
    ForwardNorth();
  }

  // The status lines the tests expect, one per lemma.

  lemma ForwardEastOutput()
    ensures Output(At(5, 2, East, false)) == "(5, 2) EAST"
  {
    assert Ints.FormatInt(2) == "2" && Ints.FormatInt(5) == "5";
  }

  lemma ForwardSouthOutput()
    ensures Output(At(5, 1, South, false)) == "(5, 1) SOUTH"
  {
    assert Ints.FormatInt(1) == "1" && Ints.FormatInt(5) == "5";
  }

  lemma ForwardWestOutput()
    ensures Output(At(4, 1, West, false)) == "(4, 1) WEST"
  {
    assert Ints.FormatInt(1) == "1" && Ints.FormatInt(4) == "4";
  }

  lemma ForwardNorthOutput()
    ensures Output(At(4, 2, North, false)) == "(4, 2) NORTH"
  {
    assert Ints.FormatInt(2) == "2" && Ints.FormatInt(4) == "4";
  }

  /** The status line `TestMoveForward` expects after each step. */
  lemma MoveForwardOutputs()
    ensures Output(At(5, 2, East, false)) == "(5, 2) EAST"
    ensures Output(At(5, 1, South, false)) == "(5, 1) SOUTH"
    ensures Output(At(4, 1, West, false)) == "(4, 1) WEST"
    ensures Output(At(4, 2, North, false)) == "(4, 2) NORTH"
  {
    ForwardEastOutput();
    ForwardSouthOutput();
    ForwardWestOutput();
    ForwardNorthOutput();
  }

  lemma BackwardEast()
    ensures Execute(Start, "B") == Outcome(At(3, 2, East, false), None)
  {
  }

  lemma BackwardSouth()
    ensures Execute(SetDirection(At(3, 2, East, false), "SOUTH"), "B") == Outcome(At(3, 3, South, false), None)
  {
  }

  lemma BackwardWest()
    ensures Execute(SetDirection(At(3, 3, South, false), "WEST"), "B") == Outcome(At(4, 3, West, false), None)
  {
  }

  lemma BackwardNorth()
    ensures Execute(SetDirection(At(4, 3, West, false), "NORTH"), "B") == Outcome(At(4, 2, North, false), None)
  {
  }

  lemma MoveBackward()
    ensures Execute(Start, "B") == Outcome(At(3, 2, East, false), None)
    ensures Execute(SetDirection(At(3, 2, East, false), "SOUTH"), "B") == Outcome(At(3, 3, South, false), None)
    ensures Execute(SetDirection(At(3, 3, South, false), "WEST"), "B") == Outcome(At(4, 3, West, false), None)
    ensures Execute(SetDirection(At(4, 3, West, false), "NORTH"), "B") == Outcome(At(4, 2, North, false), None)
  {
    BackwardEast();
    BackwardSouth();
    BackwardWest();
    BackwardNorth();
  }

  lemma BackwardEastOutput()
    ensures Output(At(3, 2, East, false)) == "(3, 2) EAST"
  {
    assert Ints.FormatInt(2) == "2" && Ints.FormatInt(3) == "3";
  }

  lemma BackwardSouthOutput()
    ensures Output(At(3, 3, South, false)) == "(3, 3) SOUTH"
  {
    assert Ints.FormatInt(3) == "3";
  }

  lemma BackwardWestOutput()
    ensures Output(At(4, 3, West, false)) == "(4, 3) WEST"
  {
    assert Ints.FormatInt(3) == "3" && Ints.FormatInt(4) == "4";
  }

  /** The status line `TestMoveBackward` expects after each step. */
  lemma MoveBackwardOutputs()
    ensures Output(At(3, 2, East, false)) == "(3, 2) EAST"
    ensures Output(At(3, 3, South, false)) == "(3, 3) SOUTH"
    ensures Output(At(4, 3, West, false)) == "(4, 3) WEST"
    ensures Output(At(4, 2, North, false)) == "(4, 2) NORTH"
  {
    BackwardEastOutput();
    BackwardSouthOutput();
    BackwardWestOutput();
    ForwardNorthOutput();
  }

  /** `TestTurnRight`: four right turns on the spot, back to `Start`. */
  lemma TurnRightFourTimes()
    ensures Execute(Start, "R") == Outcome(At(4, 2, South, false), None)
    ensures Execute(At(4, 2, South, false), "R") == Outcome(At(4, 2, West, false), None)
    ensures Execute(At(4, 2, West, false), "R") == Outcome(At(4, 2, North, false), None)
    ensures Execute(At(4, 2, North, false), "R") == Outcome(Start, None)
  {
  }

  /** `TestTurnLeft`: four left turns on the spot, back to `Start`. */
  lemma TurnLeftFourTimes()
    ensures Execute(Start, "L") == Outcome(At(4, 2, North, false), None)
    ensures Execute(At(4, 2, North, false), "L") == Outcome(At(4, 2, West, false), None)
    ensures Execute(At(4, 2, West, false), "L") == Outcome(At(4, 2, South, false), None)
    ensures Execute(At(4, 2, South, false), "L") == Outcome(Start, None)
  {
  }

  lemma RightSouthOutput()
    ensures Output(At(4, 2, South, false)) == "(4, 2) SOUTH"
  {
    assert Ints.FormatInt(2) == "2" && Ints.FormatInt(4) == "4";
  }

  lemma RightWestOutput()
    ensures Output(At(4, 2, West, false)) == "(4, 2) WEST"
  {
    assert Ints.FormatInt(2) == "2" && Ints.FormatInt(4) == "4";
  }

  /** The status lines the two turning tests expect. */
  lemma TurnOutputs()
    ensures Output(At(4, 2, South, false)) == "(4, 2) SOUTH"
    ensures Output(At(4, 2, West, false)) == "(4, 2) WEST"
    ensures Output(At(4, 2, North, false)) == "(4, 2) NORTH"
    ensures Output(Start) == "(4, 2) EAST"
  {
    RightSouthOutput();
    RightWestOutput();
    ForwardNorthOutput();
    StartOutput();
  }

  // The nine-command scenarios, in parts: each part states the state the
  // loop of `Execute` has committed after a stretch of the commands.

  lemma FullCommandFirstPart(cmds: string)
    requires cmds == "FLFFFRFLB"
    ensures ExecuteFrom(Start, cmds, 0) == ExecuteFrom(At(5, 2, North, false), cmds, 2)
  {
    ExecuteClearStep(Start, cmds, 0, Coordination(5, 2, East));
    ExecuteClearStep(At(5, 2, East, false), cmds, 1, Coordination(5, 2, North));
  }

  lemma FullCommandSecondPart(cmds: string)
    requires cmds == "FLFFFRFLB"
    ensures ExecuteFrom(At(5, 2, North, false), cmds, 2) == ExecuteFrom(At(5, 4, North, false), cmds, 4)
  {
    ExecuteClearStep(At(5, 2, North, false), cmds, 2, Coordination(5, 3, North));
    ExecuteClearStep(At(5, 3, North, false), cmds, 3, Coordination(5, 4, North));
  }

  lemma FullCommandThirdPart(cmds: string)
    requires cmds == "FLFFFRFLB"
    ensures ExecuteFrom(At(5, 4, North, false), cmds, 4) == ExecuteFrom(At(5, 5, East, false), cmds, 6)
  {
    ExecuteClearStep(At(5, 4, North, false), cmds, 4, Coordination(5, 5, North));
    ExecuteClearStep(At(5, 5, North, false), cmds, 5, Coordination(5, 5, East));
  }

  lemma FullCommandFourthPart(cmds: string)
    requires cmds == "FLFFFRFLB"
    ensures ExecuteFrom(At(5, 5, East, false), cmds, 6) == ExecuteFrom(At(6, 5, North, false), cmds, 8)
  {
    ExecuteClearStep(At(5, 5, East, false), cmds, 6, Coordination(6, 5, East));
    ExecuteClearStep(At(6, 5, East, false), cmds, 7, Coordination(6, 5, North));
  }

  lemma FullCommandLastPart(cmds: string)
    requires cmds == "FLFFFRFLB"
    ensures ExecuteFrom(At(6, 5, North, false), cmds, 8) == Outcome(At(6, 4, North, false), None)
  {
    ExecuteClearStep(At(6, 5, North, false), cmds, 8, Coordination(6, 4, North));
  }

  lemma FullCommand()
    ensures Execute(Start, "FLFFFRFLB") == Outcome(At(6, 4, North, false), None)
  {
    FullCommandFirstPart("FLFFFRFLB");
    FullCommandSecondPart("FLFFFRFLB");
    FullCommandThirdPart("FLFFFRFLB");
    FullCommandFourthPart("FLFFFRFLB");
    FullCommandLastPart("FLFFFRFLB");
  }

  lemma FullCommandOutput()
    ensures Output(At(6, 4, North, false)) == "(6, 4) NORTH"
  {
    assert Ints.FormatInt(6) == "6" && Ints.FormatInt(4) == "4";
  }

  const Obstacles: seq<Cell> := [(1, 4), (3, 5), (7, 4), (6, 5)]

  /** The start rover after `SetObstacles`, moved to a cell and heading. */
  function Blocked(x: int, y: int, d: Direction): Rover
    requires -10 <= x <= 10 && -10 <= y <= 10
  {
    Rover(Coordination(x, y, d), false, Obstacles)
  }

  lemma BlockedFirstPart(cmds: string)
    requires cmds == "FLFFFRFLB"
    ensures ExecuteFrom(Blocked(4, 2, East), cmds, 0) == ExecuteFrom(Blocked(5, 2, North), cmds, 2)
  {
    ExecuteClearStep(Blocked(4, 2, East), cmds, 0, Coordination(5, 2, East));
    ExecuteClearStep(Blocked(5, 2, East), cmds, 1, Coordination(5, 2, North));
  }

  lemma BlockedSecondPart(cmds: string)
    requires cmds == "FLFFFRFLB"
    ensures ExecuteFrom(Blocked(5, 2, North), cmds, 2) == ExecuteFrom(Blocked(5, 4, North), cmds, 4)
  {
    ExecuteClearStep(Blocked(5, 2, North), cmds, 2, Coordination(5, 3, North));
    ExecuteClearStep(Blocked(5, 3, North), cmds, 3, Coordination(5, 4, North));
  }

  lemma BlockedThirdPart(cmds: string)
    requires cmds == "FLFFFRFLB"
    ensures ExecuteFrom(Blocked(5, 4, North), cmds, 4) == ExecuteFrom(Blocked(5, 5, East), cmds, 6)
  {
    ExecuteClearStep(Blocked(5, 4, North), cmds, 4, Coordination(5, 5, North));
    ExecuteClearStep(Blocked(5, 5, North), cmds, 5, Coordination(5, 5, East));
  }

  /** The seventh command would enter (6, 5): the rover stays at (5, 5)
      facing east and the last two commands are not applied. */
  lemma BlockedLastPart(cmds: string)
    requires cmds == "FLFFFRFLB"
    ensures ExecuteFrom(Blocked(5, 5, East), cmds, 6) == Outcome(Blocked(5, 5, East).(stopped := true), None)
  {
    ExecuteBlockedStep(Blocked(5, 5, East), cmds, 6);
  }

  lemma FullCommandWithObstacles()
    ensures SetObstacles(Start, Some(Obstacles)) == Outcome(Blocked(4, 2, East), None)
    ensures Execute(Blocked(4, 2, East), "FLFFFRFLB") == Outcome(Blocked(5, 5, East).(stopped := true), None)
  {
    BlockedFirstPart("FLFFFRFLB");
    BlockedSecondPart("FLFFFRFLB");
    BlockedThirdPart("FLFFFRFLB");
    BlockedLastPart("FLFFFRFLB");
  }

  lemma FullCommandWithObstaclesOutput()
    ensures Output(Blocked(5, 5, East).(stopped := true)) == "(5, 5) EAST STOPPED"
  {
    assert Ints.FormatInt(5) == "5";
  }


  /** A later call that lands clear clears `stopped` again. */
  lemma StopIsNotSticky()
    ensures Execute(Blocked(5, 5, East).(stopped := true), "L") == Outcome(Blocked(5, 5, North), None)
  {
  }

  /** The commands before an invalid symbol stay committed, and the error
      carries the symbol and its offset. */
  lemma InvalidSymbolKeepsPrefix(cmds: string)
    requires cmds == "FFxF"
    ensures Execute(Start, cmds) == Outcome(At(6, 2, East, false), Some(InvalidCommand('x', 2)))
  {
    ExecuteClearStep(Start, cmds, 0, Coordination(5, 2, East));
    ExecuteClearStep(At(5, 2, East, false), cmds, 1, Coordination(6, 2, East));
    ByteOffsetOfCommands(cmds, 2);
  }

  /** `SetDirection` does not fold case: a lower-case heading is outside
      both tables and every later move or turn fails. */
  lemma LowerCaseHeadingIsInvalid()
    ensures SetDirection(Start, "south").coordination.direction == Other("south")
    ensures Execute(SetDirection(Start, "south"), "F")
      == Outcome(SetDirection(Start, "south"), Some(InvalidDirection(Other("south"))))
  {
  }

  /** Obstacles set onto the rover's own cell stop even a turn. */
  lemma TurnOnOwnCellStops()
    ensures Execute(Start.(obstacles := [(4, 2)]), "RF")
      == Outcome(Rover(Coordination(4, 2, East), true, [(4, 2)]), None)
  {
  }

  /** A lone non-ASCII character is two bytes long, so `NewRover` does not
      panic on it: its inner text holds one field, and the input is
      rejected as a malformed literal. */
  lemma LoneNonAsciiCharacterIsRejected(input: string)
    requires input == "\U{E9}"
    ensures NewRover(input, None) == Failure(InvalidInitialization(input))
  {
  }
}

=== FILE: text.dfy ===
/** Substring search, `strings.Split` and `strings.Join` over strings. */
module Text {
  import opened Wrappers

  /** `sep` occurs in `s` starting at index `i`. */
  predicate OccursAt(s: string, sep: string, i: nat) {
    i + |sep| <= |s| && s[i..i + |sep|] == sep
  }

  /** Index of the first occurrence of `sep` in `s` at or after `from`. */
  function FindFrom(s: string, sep: string, from: nat): (r: Option<nat>)
    ensures r.Some? ==> from <= r.value && OccursAt(s, sep, r.value)
    ensures forall j: nat :: from <= j && (r.None? || j < r.value) ==> !OccursAt(s, sep, j)
    decreases |s| - from
  {
    if from + |sep| > |s| then None
    else if s[from..from + |sep|] == sep then Some(from)
    else FindFrom(s, sep, from + 1)
  }

  /** Index of the first occurrence of `sep` in `s`. */
  function Find(s: string, sep: string): (r: Option<nat>)
    ensures r.Some? ==> OccursAt(s, sep, r.value)
    ensures forall j: nat :: (r.None? || j < r.value) ==> !OccursAt(s, sep, j)
  {
    FindFrom(s, sep, 0)
  }

  /** `strings.Split(s, sep)` for a non-empty separator: the pieces between
      the successive leftmost occurrences of `sep`; a string without `sep`
      (the empty string included) is a single piece. */
  function Split(s: string, sep: string): (parts: seq<string>)
    requires |sep| > 0
    ensures |parts| > 0
    ensures forall i, j: nat :: 0 <= i < |parts| ==> !OccursAt(parts[i], sep, j)
    decreases |s|
  {
    match Find(s, sep)
    case None => [s]
    case Some(i) =>
      PrefixBeforeFirst(s, sep, i);
      [s[..i]] + Split(s[i + |sep|..], sep)
  }

  /** The text before the first occurrence of `sep` holds no occurrence of it. */
  lemma PrefixBeforeFirst(s: string, sep: string, i: nat)
    requires |sep| > 0 && i <= |s|
    requires forall j: nat :: j < i ==> !OccursAt(s, sep, j)
    ensures forall j: nat :: !OccursAt(s[..i], sep, j)
  {
    forall j: nat
      ensures !OccursAt(s[..i], sep, j)
    {
      if j + |sep| <= i {
        assert j < i;
        assert !OccursAt(s, sep, j);
        assert s[..i][j..j + |sep|] == s[j..j + |sep|];
      }
    }
  }

  /** `strings.Join(parts, sep)`. */
  function Join(parts: seq<string>, sep: string): string
  {
    if |parts| == 0 then ""
    else if |parts| == 1 then parts[0]
    else parts[0] + sep + Join(parts[1..], sep)
  }

  /** Joining a leading piece onto a non-empty list puts `sep` between them. */
  lemma JoinCons(a: string, parts: seq<string>, sep: string)
    requires |parts| > 0
    ensures Join([a] + parts, sep) == a + sep + Join(parts, sep)
  {
    assert ([a] + parts)[1..] == parts;
  }

  /** Three pieces joined: the separator goes between each pair. */
  lemma JoinThree(a: string, b: string, c: string, sep: string)
    ensures Join([a, b, c], sep) == a + sep + b + sep + c
  {
    assert [a, b, c] == [a] + [b, c];
    assert [b, c] == [b] + [c];
    JoinCons(a, [b, c], sep);
    JoinCons(b, [c], sep);
  }

  /** An occurrence cuts a string into the text before it, `sep`, and the
      text after it. */
  lemma CutAt(s: string, sep: string, i: nat)
    requires OccursAt(s, sep, i)
    ensures s[..i] + sep + s[i + |sep|..] == s
  {
    assert s[i..i + |sep|] == sep;
    assert s == s[..i] + s[i..i + |sep|] + s[i + |sep|..];
  }

  /** Joining the pieces of a split with the same separator restores the string. */
  lemma {:induction false} JoinSplit(s: string, sep: string)
    requires |sep| > 0
    ensures Join(Split(s, sep), sep) == s
    decreases |s|
  {
    match Find(s, sep)
    case None =>
    case Some(i) =>
      var rest := s[i + |sep|..];
      JoinSplit(rest, sep);
      JoinCons(s[..i], Split(rest, sep), sep);
      CutAt(s, sep, i);
  }

  /** A string with no character `sep[0]` holds no occurrence of `sep`. */
  lemma FindAbsent(a: string, sep: string)
    requires |sep| > 0 && sep[0] !in a
    ensures Find(a, sep) == None
  {
  }

  /** The first occurrence of `sep` in `a + sep + b` is the one after `a`
      when `a` holds no character `sep[0]`. */
  lemma FindAfterFree(a: string, sep: string, b: string)
    requires |sep| > 0 && sep[0] !in a
    ensures Find(a + sep + b, sep) == Some(|a|)
    ensures (a + sep + b)[..|a|] == a && (a + sep + b)[|a| + |sep|..] == b
  {
    var s := a + sep + b;
    assert s[|a|..|a| + |sep|] == sep;
    assert OccursAt(s, sep, |a|);
  }

  /** Splitting `a + sep + b`, with `a` free of `sep[0]`, gives `a` and
      then the pieces of `b`. */
  lemma SplitAfterFree(a: string, sep: string, b: string)
    requires |sep| > 0 && sep[0] !in a
    ensures Split(a + sep + b, sep) == [a] + Split(b, sep)
  {
    FindAfterFree(a, sep, b);
  }

  /** Splitting a join of pieces free of `sep[0]` gives the pieces back. */
  lemma {:induction false} SplitJoin(parts: seq<string>, sep: string)
    requires |sep| > 0 && |parts| > 0
    requires forall i :: 0 <= i < |parts| ==> sep[0] !in parts[i]
    ensures Split(Join(parts, sep), sep) == parts
    decreases |parts|
  {
    if |parts| == 1 {
      FindAbsent(parts[0], sep);
    } else {
      SplitAfterFree(parts[0], sep, Join(parts[1..], sep));
      SplitJoin(parts[1..], sep);
      assert parts == [parts[0]] + parts[1..];
    }
  }

  /** `c` equals the upper-case ASCII letter `u` under Unicode simple case
      folding: the letter itself, its lower-case form, and for `S` and `K`
      also LATIN SMALL LETTER LONG S and KELVIN SIGN. */
  predicate FoldsTo(c: char, u: char)
    requires 'A' <= u <= 'Z'
  {
    || c == u
    || c as int == u as int + 32
    || (u == 'S' && c == '\U{017F}')
    || (u == 'K' && c == '\U{212A}')
  }

  predicate UpperAscii(name: string) {
    forall i :: 0 <= i < |name| ==> 'A' <= name[i] <= 'Z'
  }

  /** `strings.EqualFold(name, s)` for a `name` of upper-case ASCII letters:
      the same number of characters, pairwise equal under case folding. */
  predicate EqualFold(s: string, name: string)
    requires UpperAscii(name)
  {
    |s| == |name| && forall i :: 0 <= i < |s| ==> FoldsTo(s[i], name[i])
  }

  /** ASCII lower-case form of `s` */
  function Lower(s: string): (r: string)
    ensures |r| == |s|
    ensures forall i :: 0 <= i < |s| ==> r[i] == if 'A' <= s[i] <= 'Z' then (s[i] as int + 32) as char else s[i]
  {
    if |s| == 0 then "" else [if 'A' <= s[0] <= 'Z' then (s[0] as int + 32) as char else s[0]] + Lower(s[1..])
  }
}

=== FILE: wrappers.dfy ===
/** Failure-carrying datatypes used in place of Go's `(value, error)` pairs. */
module Wrappers {

  /** A value that may be absent: Go's `nil` slice or a failed lookup. */
  datatype Option<+T> = None | Some(value: T) {

    /** Returns the value in `Some`, or `default` when absent */
    function GetOr(default: T): T
    {
      match this
      case Some(v) => v
      case None => default
    }
  }

  /** A computation that either produced a value or failed with an error. */
  datatype Result<+R, +E> = Success(value: R) | Failure(error: E) {

    predicate IsFailure() {
      Failure?
    }

    function PropagateFailure<U>(): Result<U, E>
      requires Failure?
    {
      Failure(error)
    }

    function Extract(): R
      requires Success?
    {
      value
    }
  }
}
